=== FILE: README.md ===
# Parking spot occupancy bookkeeping

A Dafny model of the occupancy core of the parking spot detector. Every
frame, each parking spot is classified by a pre-trained model. `process_frame`
turns the classifications into counters, available/occupied lists, and
per-spot timestamps and events (car parked, car left, time elapsed).
`process_video` calls it once per frame. The model also covers the helpers
in `util.py`: the mapping from the classifier's raw label to a state, and
the extraction of spot rectangles from a connected-components table.

Modules:

- `Wrappers` (`wrappers.dfy`): `Option` and `Result`.
- `Util` (`util.dfy`): the `EMPTY`/`OCCUPIED` constants, `EmptyOrOccupied`,
  and `SpotBoxes` (`get_parking_lot_spots_bboxes`).
- `Labels` (`labels.dfy`): the spot-label arithmetic, with the row width as
  a parameter (20 on the frame, 16 in the tables).
- `Frames` (`frames.dfy`): `process_frame` as a pure fold over the spots,
  in index order. Inputs are the raw predictions, the previous statuses,
  the timestamps (`Option<int>`) and an integer `now`.
- `Video` (`video.dfy`): the call pattern of `process_video` as written, with
  fresh lists on every frame. It also holds a threaded tracker that carries
  statuses and timestamps forward, and shows how the two differ.

The status polarity is kept exactly as the code has it. `EMPTY` is `True`
(`util.py:7`), and the classifier maps label 1 to `EMPTY`. `process_frame`
counts a truthy status as occupied (`main.py:193-194`) and opens a parking
interval on it (`main.py:202`). It also lists that same truthy status as
available (`main.py:239`). In the model, "truthy" always means
"`EmptyOrOccupied` returned `true`", that is, label 1.

The intended behaviour and the code differ on several points; the model
follows the code:

- Occupancy state is meant to live in a tracker that persists across
  frames. The code resets it on every frame (see Findings).
- A classifier failure is meant to keep the spot's previous state. The code
  has no such path. An exception inside the frame loop is not caught in
  `process_frame` or `process_video`, so it ends the whole run; only `main`
  catches it and logs it (main.py:316-317). The model reports the
  exceptions the bookkeeping can raise as a `FrameError`:
  - `LabelOutOfRange`: `chr(65 + i // 20)` at main.py:199 rejects a code
    point above U+10FFFF, so spot 22,280,940 and every later spot cannot be
    labelled. The label is built before the branch that reads the previous
    status, so this error comes first for that spot.
  - `IndexOutOfRange`: the previous-status or timestamp list is shorter
    than the spot list.
  - `MissingTimestamp`: `now - None` on a falling edge or a still-truthy
    spot.

  The error is the one of the first spot, in index order, that raises.
  Other calls can raise too, and the model does not report them:
  `frame_number % step` (main.py:187) when `step` is 0; the event log lines
  and the spot labels drawn at main.py:231 when a label letter is a lone
  surrogate; and the table drawing at main.py:240 and 243. See
  "## Left out". "Raises" and "cannot raise" below speak of the modelled
  bookkeeping only.

## Model

| member | source | states |
|---|---|---|
| Util.StatesComplementary | util.py:7-8 | `EMPTY` and `OCCUPIED` differ and `OCCUPIED == !EMPTY` |
| Util.EmptyOrOccupied | util.py:21-24 | a raw prediction maps to `EMPTY` exactly when it equals 1 and to `OCCUPIED` exactly otherwise; the result is always one of the two |
| Util.SpotBoxes | util.py:27-40 | succeeds exactly when every label `1 .. totalLabels - 1` has a statistics row, and then returns `max(0, totalLabels - 1)` boxes; box `k` is the left, top, width and height of row `k + 1`, unchanged because the scale factor is 1; otherwise it reports the first label without a row |
| Labels.SpotLabel | main.py:198-199 | the label of index `i` has letter code `65 + i / w` and number in `1 .. w`; decoding the label gives back `i`; a letter beyond the Unicode range is an error, as `chr` raises |
| Labels.FrameLabelLimit | main.py:199 | with row width 20, a spot has a label exactly when its index is below 22,280,940; from there on the row letter is past U+10FFFF |
| Labels.SurrogateFrameLabels | main.py:199 | with row width 20, the label letter is a lone surrogate (U+D800 to U+DFFF) exactly for spots 1,104,620 to 1,145,579 |
| Labels.SpotLabelInjective | main.py:199 | distinct spot indices get distinct labels under one row width |
| Labels.FrameLabelExamples | main.py:60 | with width 20, spots 0, 19 and 20 are A1, A20 and B1 |
| Labels.RowWidthsDisagree | main.py:89 | spot 16 is labelled A17 on the frame (width 20) but B1 in the tables (width 16) |
| Frames.Positions | main.py:239-242 | the list comprehension yields exactly the indices holding the given value, strictly ascending |
| Frames.PositionsPartition | main.py:239-242 | the indices holding a value and those holding its negation split `0 .. n - 1`: disjoint, and their sizes sum to `n` |
| Frames.StepSpot | main.py:199-219 | one spot's label, previous-status read and branch: it raises exactly when the label is past U+10FFFF, the previous status is missing, the branch needs a missing timestamp slot, or a truthy previous status has no timestamp, always naming the spot; the error is `LabelOutOfRange` (`chr`'s ValueError) exactly for the label, `MissingTimestamp` (the TypeError of `now - None`) exactly for a truthy previous status without a timestamp, and `IndexOutOfRange` (IndexError) otherwise; it reports an arrival exactly on a rising edge and a departure exactly on a falling edge; otherwise it follows the four-way transition table from the previous status and stored timestamp |
| Frames.UpdateSpot | main.py:201-219 | a spot's step changes no timestamp slot but its own and keeps the list's length; it succeeds only if the previous status exists, and the timestamp slot when the branch reads or writes it |
| Frames.RisingEdge | main.py:202-203 | for a labelled spot, truthy status after a falsy one: the slot becomes `now`, the event is an arrival at `now`, and every other slot is unchanged |
| Frames.FallingEdge | main.py:209-215 | for a labelled spot, falsy status after a truthy one: the duration is `now` minus the stored timestamp and the slot becomes `None` |
| Frames.UnchangedStatus | main.py:217-219 | for a labelled spot, an unchanged status leaves the whole list as it was; staying truthy reports `now` minus the stored timestamp as elapsed |
| Frames.Scan | main.py:184-229 | the loop, one `Extend` per spot (the append and counter update of main.py:192-196); after the first `k` spots: one status per spot in index order, counters that split `k`, and each spot's event and timestamp equal to those of its own step on the original list; slots from `k` on untouched; the fold fails exactly when some spot's step does, with the first such spot's error |
| Frames.ProcessFrame | main.py:170-245 | for the bookkeeping (the drawing calls are left out): `empty_count + occupied_count` is the number of spots; `occupied_count` counts truthy statuses; `available` and `occupied` are strictly ascending and hold exactly the indices whose status is, or is not, `EMPTY`; each event and timestamp is that of the spot's own step; it fails exactly at the first failing spot |
| Frames.AvailableOccupiedPartition | main.py:239-242 | after a frame, `available` and `occupied` are disjoint and together list every spot once |
| Frames.OccupiedCountIsAvailableCount | main.py:193-196 | because `EMPTY` is `True`, the occupied counter equals the number of available spots, and the empty counter the number of occupied ones |
| Frames.ArrivalsFollowEmptyPredictions | main.py:202-209 | an arrival is recorded exactly when the spot's prediction is 1 (`EMPTY`) and its previous status was falsy; a departure exactly when the prediction is not 1 and the previous status was truthy |
| Frames.CoherentFrameSucceeds | main.py:199-219 | if every spot can be labelled, both lists cover every spot, and every truthy previous status has a timestamp, the bookkeeping cannot raise |
| Frames.IncoherentFrameFails | main.py:199-219 | a spot that cannot be labelled, a missing previous status, or a truthy previous status without a stored timestamp makes the frame raise |
| Frames.TooManySpotsFails | main.py:184-199 | a frame with more than 22,280,940 spots and otherwise coherent lists raises `chr`'s error at spot 22,280,940 |
| Frames.FrameTransitions | main.py:201-229 | every spot of a completed frame follows the four-way transition table: rising, falling, still truthy, still falsy |
| Video.FreshFrame | main.py:262-270 | with fresh `[0] * n` and `[False] * n`, the bookkeeping raises exactly when the frame has more than 22,280,940 spots, at the label of spot 22,280,940; otherwise every truthy spot reports an arrival at `now` and its slot is reset to `now`; falsy spots keep 0 and stay idle |
| Video.AsWrittenVideo | main.py:257-277 | as written, the run completes exactly when no frame's bookkeeping raises, and otherwise fails with a failing frame's error; a spot's event in a frame depends only on that frame: an arrival when truthy, idle otherwise |
| Video.AsWrittenScenario | main.py:262-270 | a spot truthy at t=0 and t=10 and falsy at t=15 is reported as arrived twice and never departed |
| Video.VariantsDiverge | main.py:262-270 | whenever a spot stays truthy across two frames, the pattern as written reports a new arrival, while the threaded tracker reports the time elapsed since the run began |
| Video.Start | main.py:268-269 | the threaded tracker starts from the lists `process_video` builds: every status falsy and every timestamp 0 |
| Video.Advance | main.py:262-270 | for a lot whose spots can all be labelled, feeding the previous statuses and timestamps back in never makes the bookkeeping raise; each spot follows the transition table against the carried state; the tracker stays coherent (a truthy spot holds a timestamp) |
| Video.RunTracker | main.py:257-277 | for a lot whose spots can all be labelled, the threaded tracker over all frames stays coherent and gives one report per frame |
| Video.ThreadedVideo | main.py:257-277 | with statuses and timestamps threaded between frames, the bookkeeping fails exactly when there is a frame and more than 22,280,940 spots, with the error the first frame raises on the initial lists; otherwise it gives one report per frame, each event being the one the classification history calls for |
| Video.RunTrackerFollowsHistory | main.py:201-219 | the threaded tracker's state mirrors the last frame. A truthy spot holds the time its current truthy run began. Each reported event is the one the classification history calls for: arrival when a run starts, elapsed time while it lasts, duration when it ends |
| Video.SingleArrivalPerRun | main.py:202-219 | a spot truthy in frames `a .. b`, and not in `a - 1`, reports exactly one arrival, at `a`, then the time since `a` in every later frame of the run |
| Video.DepartureReportsDwell | main.py:209-215 | the frame that ends such a run reports a departure whose duration is the time since the run began |
| Video.RepeatedFrameChangesNothing | main.py:217-219 | feeding the same classifications again leaves every status and timestamp unchanged and reports neither arrival nor departure |
| Video.ThreadedScenario | main.py:201-219 | for the same three frames, the threaded tracker reports an arrival at 0, 10 seconds elapsed, then a departure after 15 seconds |

## Left out

- Drawing, `imshow`/`waitKey`, and video capture and release
  (main.py:26-167, 231-238, 240-241, 243, 249-261, 271-280): rendering and
  I/O.
- The random choice of at most five spots for the tables (main.py:77, 126):
  nondeterministic. Which spots it picks decides whether the table drawing
  raises (see the next lines).
- Clock and date formatting: `time.time()` is replaced by an integer `now`
  parameter; `time.ctime` and the `.2f` formatting are presentation only.
- Reading a timestamp in `draw_occupied_spots` (main.py:94-96): part of
  the drawing; see the "Frames.ProcessFrame:" line on drawing exceptions
  below. In the threaded variant, a spot that has departed holds `None`. Such a
  spot is listed as occupied (status not `EMPTY`), so drawing it would
  raise.
- `calculate_image_difference` and the `frame_number % step` cadence
  (main.py:21-23, 187-190): floating-point means whose result is never used.
- The every-tenth-frame log line (main.py:234-237) and the text of the
  event log messages (main.py:204-206, 212-214): logging. Writing an event
  message can raise; see the "Frames.StepSpot:" line below.
- The classifier itself: the pickle load, `resize` and `MODEL.predict`
  (util.py:10-19). These are foreign calls; each spot's raw predicted label
  is an input.
- Cropping the frame to a spot (main.py:185-186): numpy slicing feeding the
  classifier.
- `cv2.connectedComponentsWithStats` (main.py:251): its label count and
  statistics table are the input of `SpotBoxes`. The label image and the
  centroids are not read by the extraction.
- Frames.StepSpot: on a rising or falling edge the spot's label is written
  to the console through rich (base_logging.py:55-56). For spots 1,104,620
  to 1,145,579 the label letter is a lone surrogate (see
  `Labels.SurrogateFrameLabels`), which cannot be encoded as UTF-8, so the
  write can raise `UnicodeEncodeError`. The model reports that spot's step
  as a success. Whether the write raises depends on the console library and
  the output stream's encoding, which are not part of this model.
- Video.FreshFrame: the same logging exception applies to every frame of
  `process_video` with more than 1,104,620 spots, at the first spot from
  1,104,620 to 1,145,579 whose prediction is 1. Every such frame also labels all its spots in
  `draw_parking_spots_on_frame` (main.py:231, labels at main.py:59-70), and
  `cv2.putText` must encode those labels, so the frame can raise while
  drawing. The model does not report either.
- Frames.ProcessFrame: the drawing calls at main.py:231, 240 and 243 can
  raise. Labels with a lone-surrogate letter can fail to encode in
  `cv2.putText` (main.py:231, see the "Video.FreshFrame:" line).
  The model does not report these. The tables label spots with row width
  16 (main.py:89, 138), so `chr` raises for a drawn spot with index
  17,824,752 or more. `draw_occupied_spots` computes `time.time() - None`
  (main.py:96) for a drawn spot whose timestamp is `None`, for example a
  falsy spot whose caller passed `None`.
- Video.FreshFrame: the same drawing exceptions apply to every frame of
  `process_video`. With fresh lists no timestamp is `None`, but a frame
  with more than 17,824,752 spots can still raise in a table.
- Frames.ProcessFrame: the `ZeroDivisionError` of `frame_number % step`
  (main.py:187) when `step` is 0 is not modelled. `step` is a command-line
  argument fixed for the run, so with 0 the first spot of the first frame
  raises and the run ends before any bookkeeping; the model takes a
  non-zero `step` as given.
- Frames.ProcessFrame: a Python exception leaves behind the writes already
  made to the caller's timestamp list. The model returns only the error. In
  `process_video` the list is a temporary, so this is not observable there.
- Labels.SpotLabel: yields the letter's code point and the number, not the
  formatted string; a Dafny `char` cannot hold the surrogate code points
  Python's `chr` can produce.
- base_logging.py and events.py: console and loguru wrappers, progress
  bars, and a subprocess call to a formatter. They contain no occupancy
  logic.
- Argument parsing, `main` and the exit hooks (main.py:283-323): process
  lifecycle.

## Findings

| source | as written | input that shows it | evidently intended | confidence | as-written member | corrected member |
|---|---|---|---|---|---|---|
| main.py:262-270 | every frame is processed with fresh `[0] * n` timestamps and `[False] * n` previous statuses, and the returned statuses are dropped | one spot whose prediction is 1 at t=0 and again at t=10 | each frame's statuses and timestamps feed the next call, so a stay gives one arrival, then the elapsed time, then a departure with its duration | high, not executed | Video.AsWrittenScenario | Video.SingleArrivalPerRun |

=== FILE: frames.dfy ===
/** The per-frame occupancy bookkeeping of `process_frame`. The classifier is
    abstracted to its raw prediction per spot, and the clock to an integer `now`. */
module Frames {
  import opened Wrappers
  import opened Util
  import opened Labels

  /** What happened at one spot in one frame. */
  datatype Event =
    | Arrived(at: int)                   // status became truthy: timestamp set to `now`
    | Departed(at: int, duration: int)   // status became falsy: parked duration reported
    | Parked(elapsed: int)               // status stayed truthy: elapsed time reported
    | Idle                               // status stayed falsy

  /** The exceptions the frame loop can raise: a spot whose label letter `chr`
      rejects, an index past the end of the previous-status or timestamp
      list, or arithmetic on a missing timestamp. */
  datatype FrameError =
    | LabelOutOfRange(spot: nat)
    | IndexOutOfRange(spot: nat)
    | MissingTimestamp(spot: nat)

  /** The timestamp a spot holds after its step, and the event it produced. */
  datatype Step = Step(since: Option<int>, event: Event)

  /** The spot statuses, timestamps, counters and events after a prefix of the spots. */
  datatype Tally = Tally(statuses: seq<bool>, timestamps: seq<Option<int>>,
                         emptyCount: nat, occupiedCount: nat, events: seq<Event>)

  /** Everything one frame produces. */
  datatype FrameReport = FrameReport(statuses: seq<bool>, timestamps: seq<Option<int>>,
                                     emptyCount: nat, occupiedCount: nat,
                                     available: seq<nat>, occupied: seq<nat>,
                                     events: seq<Event>)

  predicate StrictlyAscending(p: seq<nat>)
  {
    forall a, b :: 0 <= a < b < |p| ==> p[a] < p[b]
  }

  /** The indices `j` with `s[j] == v`, in ascending order. */
  function Positions(s: seq<bool>, v: bool): (p: seq<nat>)
    ensures StrictlyAscending(p)
    ensures forall k :: 0 <= k < |p| ==> p[k] < |s| && s[p[k]] == v
    ensures forall j :: 0 <= j < |s| && s[j] == v ==> j in p
  {
    if |s| == 0 then []
    else Positions(s[..|s| - 1], v) + (if s[|s| - 1] == v then [|s| - 1] else [])
  }

  /** Appending an entry adds its index to the position list of its own value. */
  lemma PositionsSnoc(s: seq<bool>, x: bool, v: bool)
    ensures |Positions(s + [x], v)| == |Positions(s, v)| + (if x == v then 1 else 0)
  {
    assert (s + [x])[..|s|] == s;
  }

  /** Every index has exactly one of the two values, so the two position
      lists split `0 .. |s| - 1` between them. */
  lemma {:induction false} PositionsPartition(s: seq<bool>, v: bool)
    ensures |Positions(s, v)| + |Positions(s, !v)| == |s|
    ensures forall j :: 0 <= j < |s| ==> (j in Positions(s, v) <==> j !in Positions(s, !v))
  {
    if |s| > 0 {
      PositionsPartition(s[..|s| - 1], v);
    }
  }

  /** The transition table of one spot: from its previous status `was` and
      stored timestamp `since` to its new status, timestamp `since'` and event. */
  predicate SpotTransition(was: bool, since: Option<int>, status: bool, since': Option<int>,
                           event: Event, now: int)
  {
    && (status && !was ==> since' == Some(now) && event == Arrived(now))
    && (!status && was ==> since.Some? && since' == None && event == Departed(now, now - since.value))
    && (status && was ==> since.Some? && since' == since && event == Parked(now - since.value))
    && (!status && !was ==> since' == since && event == Idle)
  }

  /** Builds the spot's label, reads `prevs[i]`, then takes the branch of
      main.py:201-219 for spot `i`. Only the branches that read or write
      `timestamps[i]` need it to exist. */
  function StepSpot(i: nat, status: bool, prevs: seq<bool>, timestamps: seq<Option<int>>,
                    now: int): (r: Result<Step, FrameError>)
    // it raises exactly when the label, the previous status, or a timestamp the branch needs is missing
    ensures r.Failure? <==>
              || SpotLabel(i, FRAME_ROW_WIDTH).Failure?
              || i >= |prevs|
              || ((status || prevs[i]) && i >= |timestamps|)
              || (prevs[i] && timestamps[i].None?)
    ensures r.Failure? ==> r.error.spot == i
    // which exception: `chr`'s ValueError, a TypeError on a missing timestamp, otherwise an IndexError
    ensures r.Failure? ==> (r.error.LabelOutOfRange? <==> SpotLabel(i, FRAME_ROW_WIDTH).Failure?)
    ensures r.Failure? ==>
              (r.error.MissingTimestamp? <==>
                 SpotLabel(i, FRAME_ROW_WIDTH).Success? && i < |prevs| && prevs[i]
                 && i < |timestamps| && timestamps[i].None?)
    // an arrival exactly on a rising edge, a departure exactly on a falling edge
    ensures r.Success? ==> (r.value.event.Arrived? <==> status && !prevs[i])
    ensures r.Success? ==> (r.value.event.Departed? <==> !status && prevs[i])
    // the branch taken follows the transition table
    ensures r.Success? && i < |timestamps| ==>
              SpotTransition(prevs[i], timestamps[i], status, r.value.since, r.value.event, now)
  {
    if SpotLabel(i, FRAME_ROW_WIDTH).Failure? then Failure(LabelOutOfRange(i))
    else if i >= |prevs| then Failure(IndexOutOfRange(i))
    else if !status && !prevs[i] then
      Success(Step(if i < |timestamps| then timestamps[i] else None, Idle))
    else if i >= |timestamps| then Failure(IndexOutOfRange(i))
    else if status && !prevs[i] then Success(Step(Some(now), Arrived(now)))
    else if timestamps[i].None? then Failure(MissingTimestamp(i))
    else if !status then Success(Step(None, Departed(now, now - timestamps[i].value)))
    else Success(Step(timestamps[i], Parked(now - timestamps[i].value)))
  }

  /** Stores a step's timestamp back into slot `i` when the list has one. */
  function Write(timestamps: seq<Option<int>>, i: nat, since: Option<int>): (w: seq<Option<int>>)
    ensures |w| == |timestamps|
    ensures forall j :: 0 <= j < |w| && j != i ==> w[j] == timestamps[j]
    ensures i < |w| ==> w[i] == since
  {
    if i < |timestamps| then timestamps[i := since] else timestamps
  }

  /** One spot's step applied to the timestamp list: the rising edge writes
      `now`, the falling edge clears the slot, and no other slot changes. */
  function UpdateSpot(i: nat, status: bool, prevs: seq<bool>, timestamps: seq<Option<int>>,
                      now: int): (r: Result<(seq<Option<int>>, Event), FrameError>)
    ensures r.Success? ==> |r.value.0| == |timestamps|
    ensures r.Success? ==> forall j :: 0 <= j < |timestamps| && j != i ==> r.value.0[j] == timestamps[j]
    ensures r.Success? ==> i < |prevs|
    ensures r.Success? && (status || prevs[i]) ==> i < |timestamps|
  {
    match StepSpot(i, status, prevs, timestamps, now)
    case Failure(e) => Failure(e)
    case Success(s) => Success((Write(timestamps, i, s.since), s.event))
  }

  /** Rising edge: the slot becomes `now` and the spot reports an arrival. */
  lemma RisingEdge(i: nat, prevs: seq<bool>, timestamps: seq<Option<int>>, now: int)
    requires i < MAX_LABELLED_SPOTS
    requires i < |prevs| && i < |timestamps| && !prevs[i]
    ensures UpdateSpot(i, true, prevs, timestamps, now)
            == Success((timestamps[i := Some(now)], Arrived(now)))
  {
    FrameLabelLimit(i);
  }

  /** Falling edge: the duration is `now` minus the stored timestamp and the slot is cleared. */
  lemma FallingEdge(i: nat, prevs: seq<bool>, timestamps: seq<Option<int>>, now: int)
    requires i < MAX_LABELLED_SPOTS
    requires i < |prevs| && i < |timestamps| && prevs[i] && timestamps[i].Some?
    ensures UpdateSpot(i, false, prevs, timestamps, now)
            == Success((timestamps[i := None], Departed(now, now - timestamps[i].value)))
  {
    FrameLabelLimit(i);
  }

  /** Unchanged status leaves the list as it was; a spot that stays truthy
      reports the time elapsed since its stored timestamp. */
  lemma UnchangedStatus(i: nat, status: bool, prevs: seq<bool>, timestamps: seq<Option<int>>, now: int)
    requires i < MAX_LABELLED_SPOTS
    requires i < |prevs| && i < |timestamps| && status == prevs[i]
    requires status ==> timestamps[i].Some?
    ensures UpdateSpot(i, status, prevs, timestamps, now).Success?
    ensures UpdateSpot(i, status, prevs, timestamps, now).value.0 == timestamps
    ensures UpdateSpot(i, status, prevs, timestamps, now).value.1
            == if status then Parked(now - timestamps[i].value) else Idle
  {
    FrameLabelLimit(i);
    assert timestamps[i := timestamps[i]] == timestamps;
  }

  /** A step depends on the timestamp list only through its length and slot `i`. */
  lemma StepSpotReadsOwnSlot(i: nat, status: bool, prevs: seq<bool>,
                             a: seq<Option<int>>, b: seq<Option<int>>, now: int)
    requires |a| == |b| && (i < |a| ==> a[i] == b[i])
    ensures StepSpot(i, status, prevs, a, now) == StepSpot(i, status, prevs, b, now)
  {
  }

  /** Spot `j`'s step judged against the timestamps the frame started with. */
  function SpotAt(preds: seq<int>, prevs: seq<bool>, timestamps: seq<Option<int>>, now: int,
                  j: nat): Result<Step, FrameError>
    requires j < |preds|
  {
    StepSpot(j, EmptyOrOccupied(preds[j]), prevs, timestamps, now)
  }

  /** The statuses and counters of `t` are those of spots `0 .. k - 1`. */
  predicate CountsAgree(t: Tally, preds: seq<int>, k: nat)
    requires k <= |preds|
  {
    && |t.statuses| == k
    && (forall j :: 0 <= j < k ==> t.statuses[j] == EmptyOrOccupied(preds[j]))
    && t.occupiedCount == |Positions(t.statuses, true)|
    && t.emptyCount == |Positions(t.statuses, false)|
    && t.emptyCount + t.occupiedCount == k
  }

  /** Spots `0 .. k - 1` each left the event and timestamp of their own step. */
  predicate StepsAgree(t: Tally, preds: seq<int>, prevs: seq<bool>, timestamps: seq<Option<int>>,
                       now: int, k: nat)
    requires k <= |preds|
  {
    && |t.events| == k
    && |t.timestamps| == |timestamps|
    && (forall j :: 0 <= j < k ==>
          && SpotAt(preds, prevs, timestamps, now, j).Success?
          && t.events[j] == SpotAt(preds, prevs, timestamps, now, j).value.event
          && (j < |timestamps| ==> t.timestamps[j] == SpotAt(preds, prevs, timestamps, now, j).value.since))
  }

  /** No slot from `k` on has been written. */
  predicate UntouchedFrom(t: Tally, timestamps: seq<Option<int>>, k: nat)
  {
    && |t.timestamps| == |timestamps|
    && forall j :: k <= j < |timestamps| ==> t.timestamps[j] == timestamps[j]
  }

  /** `t` is what the spots `0 .. k - 1` leave behind when each is judged on its own. */
  predicate TallyAgrees(t: Tally, preds: seq<int>, prevs: seq<bool>, timestamps: seq<Option<int>>,
                        now: int, k: nat)
    requires k <= |preds|
  {
    && CountsAgree(t, preds, k)
    && StepsAgree(t, preds, prevs, timestamps, now, k)
    && UntouchedFrom(t, timestamps, k)
  }

  /** Spot `j` is the first whose step fails, with error `e`. */
  predicate FirstFailure(preds: seq<int>, prevs: seq<bool>, timestamps: seq<Option<int>>, now: int,
                         j: nat, e: FrameError)
    requires j < |preds|
  {
    && SpotAt(preds, prevs, timestamps, now, j) == Failure(e)
    && forall i :: 0 <= i < j ==> SpotAt(preds, prevs, timestamps, now, i).Success?
  }

  /** The tally after one more spot: its status, event and updated timestamps appended. */
  function Extend(t: Tally, status: bool, u: (seq<Option<int>>, Event)): Tally
  {
    Tally(t.statuses + [status], u.0,
          if status then t.emptyCount else t.emptyCount + 1,
          if status then t.occupiedCount + 1 else t.occupiedCount,
          t.events + [u.1])
  }

  lemma ExtendCounts(preds: seq<int>, k: nat, t: Tally, u: (seq<Option<int>>, Event))
    requires 0 < k <= |preds|
    requires CountsAgree(t, preds, k - 1)
    ensures CountsAgree(Extend(t, EmptyOrOccupied(preds[k - 1]), u), preds, k)
  {
    ExtendStatuses(preds, k, t, u);
    ExtendCounters(t, EmptyOrOccupied(preds[k - 1]), u);
  }

  /** Appending spot `k - 1`'s status keeps one status per spot, in spot order. */
  lemma ExtendStatuses(preds: seq<int>, k: nat, t: Tally, u: (seq<Option<int>>, Event))
    requires 0 < k <= |preds|
    requires |t.statuses| == k - 1
    requires forall j :: 0 <= j < k - 1 ==> t.statuses[j] == EmptyOrOccupied(preds[j])
    ensures var s' := Extend(t, EmptyOrOccupied(preds[k - 1]), u).statuses;
            |s'| == k && forall j :: 0 <= j < k ==> s'[j] == EmptyOrOccupied(preds[j])
  {
    var s' := Extend(t, EmptyOrOccupied(preds[k - 1]), u).statuses;
    forall j | 0 <= j < k
      ensures s'[j] == EmptyOrOccupied(preds[j])
    {
      if j < k - 1 {
        assert s'[j] == t.statuses[j];
      }
    }
  }

  /** Appending a status keeps each counter equal to the size of its value's position list. */
  lemma ExtendCounters(t: Tally, status: bool, u: (seq<Option<int>>, Event))
    requires t.occupiedCount == |Positions(t.statuses, true)|
    requires t.emptyCount == |Positions(t.statuses, false)|
    ensures Extend(t, status, u).occupiedCount == |Positions(Extend(t, status, u).statuses, true)|
    ensures Extend(t, status, u).emptyCount == |Positions(Extend(t, status, u).statuses, false)|
  {
    PositionsSnoc(t.statuses, status, true);
    PositionsSnoc(t.statuses, status, false);
  }

  lemma ExtendSteps(preds: seq<int>, prevs: seq<bool>, timestamps: seq<Option<int>>, now: int,
                    k: nat, t: Tally)
    requires 0 < k <= |preds|
    requires StepsAgree(t, preds, prevs, timestamps, now, k - 1)
    requires UntouchedFrom(t, timestamps, k - 1)
    requires UpdateSpot(k - 1, EmptyOrOccupied(preds[k - 1]), prevs, t.timestamps, now).Success?
    ensures StepsAgree(Extend(t, EmptyOrOccupied(preds[k - 1]),
                              UpdateSpot(k - 1, EmptyOrOccupied(preds[k - 1]), prevs, t.timestamps, now).value),
                       preds, prevs, timestamps, now, k)
  {
    var status := EmptyOrOccupied(preds[k - 1]);
    var u := UpdateSpot(k - 1, status, prevs, t.timestamps, now).value;
    var t' := Extend(t, status, u);
    StepSpotReadsOwnSlot(k - 1, status, prevs, t.timestamps, timestamps, now);
    forall j | 0 <= j < k
      ensures SpotAt(preds, prevs, timestamps, now, j).Success?
      ensures t'.events[j] == SpotAt(preds, prevs, timestamps, now, j).value.event
      ensures j < |timestamps| ==> t'.timestamps[j] == SpotAt(preds, prevs, timestamps, now, j).value.since
    {
      if j < k - 1 {
        assert t'.events[j] == t.events[j];
        assert j < |timestamps| ==> t'.timestamps[j] == t.timestamps[j];
      }
    }
  }

  lemma ExtendUntouched(preds: seq<int>, prevs: seq<bool>, now: int, timestamps: seq<Option<int>>,
                        k: nat, t: Tally)
    requires 0 < k <= |preds|
    requires UntouchedFrom(t, timestamps, k - 1)
    requires UpdateSpot(k - 1, EmptyOrOccupied(preds[k - 1]), prevs, t.timestamps, now).Success?
    ensures UntouchedFrom(Extend(t, EmptyOrOccupied(preds[k - 1]),
                                 UpdateSpot(k - 1, EmptyOrOccupied(preds[k - 1]), prevs, t.timestamps, now).value),
                          timestamps, k)
  {
  }

  /** Processing spot `k - 1` on top of an agreeing tally of `k - 1` spots
      gives an agreeing tally of `k` spots. */
  lemma ExtendAgrees(preds: seq<int>, prevs: seq<bool>, timestamps: seq<Option<int>>, now: int,
                     k: nat, t: Tally)
    requires 0 < k <= |preds|
    requires TallyAgrees(t, preds, prevs, timestamps, now, k - 1)
    requires UpdateSpot(k - 1, EmptyOrOccupied(preds[k - 1]), prevs, t.timestamps, now).Success?
    ensures TallyAgrees(Extend(t, EmptyOrOccupied(preds[k - 1]),
                               UpdateSpot(k - 1, EmptyOrOccupied(preds[k - 1]), prevs, t.timestamps, now).value),
                        preds, prevs, timestamps, now, k)
  {
    var u := UpdateSpot(k - 1, EmptyOrOccupied(preds[k - 1]), prevs, t.timestamps, now).value;
    ExtendCounts(preds, k, t, u);
    ExtendSteps(preds, prevs, timestamps, now, k, t);
    ExtendUntouched(preds, prevs, now, timestamps, k, t);
  }

  /** When spot `k - 1` fails on top of an agreeing tally, it is the first failing spot. */
  lemma ExtendFails(preds: seq<int>, prevs: seq<bool>, timestamps: seq<Option<int>>, now: int,
                    k: nat, t: Tally)
    requires 0 < k <= |preds|
    requires TallyAgrees(t, preds, prevs, timestamps, now, k - 1)
    requires UpdateSpot(k - 1, EmptyOrOccupied(preds[k - 1]), prevs, t.timestamps, now).Failure?
    ensures FirstFailure(preds, prevs, timestamps, now, k - 1,
                         UpdateSpot(k - 1, EmptyOrOccupied(preds[k - 1]), prevs, t.timestamps, now).error)
  {
    StepSpotReadsOwnSlot(k - 1, EmptyOrOccupied(preds[k - 1]), prevs, t.timestamps, timestamps, now);
  }

  /** The loop of main.py:184-229 over the first `k` spots, in index order,
      threading the (mutated) timestamp list from spot to spot. */
  function Scan(preds: seq<int>, prevs: seq<bool>, timestamps: seq<Option<int>>, now: int,
                k: nat): (r: Result<Tally, FrameError>)
    requires k <= |preds|
    ensures r.Success? <==> forall j :: 0 <= j < k ==> SpotAt(preds, prevs, timestamps, now, j).Success?
    ensures r.Failure? ==> exists j :: 0 <= j < k && FirstFailure(preds, prevs, timestamps, now, j, r.error)
    ensures r.Success? ==> TallyAgrees(r.value, preds, prevs, timestamps, now, k)
  {
    if k == 0 then Success(Tally([], timestamps, 0, 0, []))
    else
      match Scan(preds, prevs, timestamps, now, k - 1)
      case Failure(e) => Failure(e)
      case Success(t) =>
        var status := EmptyOrOccupied(preds[k - 1]);
        match UpdateSpot(k - 1, status, prevs, t.timestamps, now)
        case Failure(e) =>
          ExtendFails(preds, prevs, timestamps, now, k, t);
          Failure(e)
        case Success(u) =>
          ExtendAgrees(preds, prevs, timestamps, now, k, t);
          Success(Extend(t, status, u))
  }

  /** One call of `process_frame`: `preds` holds the classifier's raw
      prediction per spot, `prevs` and `timestamps` the caller's lists. */
  function ProcessFrame(preds: seq<int>, prevs: seq<bool>, timestamps: seq<Option<int>>,
                        now: int): (r: Result<FrameReport, FrameError>)
    // the frame aborts exactly when some spot's step does, at the first such spot
    ensures r.Success? <==> forall j :: 0 <= j < |preds| ==> SpotAt(preds, prevs, timestamps, now, j).Success?
    ensures r.Failure? ==> exists j :: 0 <= j < |preds| && FirstFailure(preds, prevs, timestamps, now, j, r.error)
    // one status per spot, in spot order
    ensures r.Success? ==> |r.value.statuses| == |preds|
    ensures r.Success? ==> forall j :: 0 <= j < |preds| ==> r.value.statuses[j] == EmptyOrOccupied(preds[j])
    // the counters cover every spot; a truthy status is counted as occupied
    ensures r.Success? ==> r.value.emptyCount + r.value.occupiedCount == |preds|
    ensures r.Success? ==> r.value.occupiedCount == |Positions(r.value.statuses, true)|
    // `available` lists the spots whose status equals EMPTY, `occupied` the rest, ascending
    ensures r.Success? ==> StrictlyAscending(r.value.available) && StrictlyAscending(r.value.occupied)
    ensures r.Success? ==> forall j :: j in r.value.available <==> 0 <= j < |preds| && r.value.statuses[j] == EMPTY
    ensures r.Success? ==> forall j :: j in r.value.occupied <==> 0 <= j < |preds| && r.value.statuses[j] != EMPTY
    // each spot's event and timestamp are those of its own step; later slots are untouched
    ensures r.Success? ==> |r.value.events| == |preds| && |r.value.timestamps| == |timestamps|
    ensures r.Success? ==> forall j :: 0 <= j < |preds| ==>
              r.value.events[j] == SpotAt(preds, prevs, timestamps, now, j).value.event
    ensures r.Success? ==> forall j :: 0 <= j < |preds| && j < |timestamps| ==>
              r.value.timestamps[j] == SpotAt(preds, prevs, timestamps, now, j).value.since
    ensures r.Success? ==> forall j :: |preds| <= j < |timestamps| ==> r.value.timestamps[j] == timestamps[j]
  {
    match Scan(preds, prevs, timestamps, now, |preds|)
    case Failure(e) => Failure(e)
    case Success(t) =>
      var available := Positions(t.statuses, EMPTY);
      var occupied := Positions(t.statuses, !EMPTY);
      assert forall j :: j in available ==> 0 <= j < |preds| && t.statuses[j] == EMPTY by {
        forall j | j in available ensures 0 <= j < |preds| && t.statuses[j] == EMPTY {
          var a :| 0 <= a < |available| && available[a] == j;
        }
      }
      assert forall j :: j in occupied ==> 0 <= j < |preds| && t.statuses[j] != EMPTY by {
        forall j | j in occupied ensures 0 <= j < |preds| && t.statuses[j] != EMPTY {
          var a :| 0 <= a < |occupied| && occupied[a] == j;
        }
      }
      Success(FrameReport(t.statuses, t.timestamps, t.emptyCount, t.occupiedCount,
                          available, occupied, t.events))
  }

  /** `available` and `occupied` are disjoint and together list every spot once. */
  lemma AvailableOccupiedPartition(preds: seq<int>, prevs: seq<bool>, timestamps: seq<Option<int>>, now: int)
    requires ProcessFrame(preds, prevs, timestamps, now).Success?
    ensures var r := ProcessFrame(preds, prevs, timestamps, now).value;
            |r.available| + |r.occupied| == |preds|
    ensures var r := ProcessFrame(preds, prevs, timestamps, now).value;
            forall j :: 0 <= j < |preds| ==> (j in r.available <==> j !in r.occupied)
  {
    var r := ProcessFrame(preds, prevs, timestamps, now).value;
    PositionsPartition(r.statuses, EMPTY);
  }

  /** As written, a truthy status is counted as occupied but listed as
      available (EMPTY is `true`), so the occupied counter always equals the
      number of available spots and the empty counter the number of occupied ones. */
  lemma OccupiedCountIsAvailableCount(preds: seq<int>, prevs: seq<bool>, timestamps: seq<Option<int>>, now: int)
    requires ProcessFrame(preds, prevs, timestamps, now).Success?
    ensures var r := ProcessFrame(preds, prevs, timestamps, now).value;
            r.occupiedCount == |r.available| && r.emptyCount == |r.occupied|
  {
    var r := ProcessFrame(preds, prevs, timestamps, now).value;
    PositionsPartition(r.statuses, true);
  }

  /** As written, an arrival is recorded exactly for a spot newly classified
      EMPTY (prediction 1), and a departure for a spot newly classified OCCUPIED. */
  lemma ArrivalsFollowEmptyPredictions(preds: seq<int>, prevs: seq<bool>, timestamps: seq<Option<int>>,
                                       now: int, j: nat)
    requires ProcessFrame(preds, prevs, timestamps, now).Success?
    requires j < |preds|
    ensures ProcessFrame(preds, prevs, timestamps, now).value.events[j].Arrived? <==> preds[j] == 1 && !prevs[j]
    ensures ProcessFrame(preds, prevs, timestamps, now).value.events[j].Departed? <==> preds[j] != 1 && prevs[j]
  {
    var status := EmptyOrOccupied(preds[j]);
    var step := StepSpot(j, status, prevs, timestamps, now);
    assert step == SpotAt(preds, prevs, timestamps, now, j);
  }

  /** A frame cannot abort when every spot can be labelled, both lists cover
      every spot, and every spot whose previous status is truthy holds a timestamp. */
  lemma CoherentFrameSucceeds(preds: seq<int>, prevs: seq<bool>, timestamps: seq<Option<int>>, now: int)
    requires |preds| <= MAX_LABELLED_SPOTS
    requires |prevs| >= |preds| && |timestamps| >= |preds|
    requires forall j :: 0 <= j < |preds| && prevs[j] ==> timestamps[j].Some?
    ensures ProcessFrame(preds, prevs, timestamps, now).Success?
  {
    forall j | 0 <= j < |preds|
      ensures SpotAt(preds, prevs, timestamps, now, j).Success?
    {
      FrameLabelLimit(j);
    }
  }

  /** A frame aborts when a spot cannot be labelled, has no previous status,
      or has a truthy previous status but no stored timestamp. */
  lemma IncoherentFrameFails(preds: seq<int>, prevs: seq<bool>, timestamps: seq<Option<int>>, now: int, j: nat)
    requires j < |preds|
    requires j >= MAX_LABELLED_SPOTS || j >= |prevs| || (prevs[j] && (j >= |timestamps| || timestamps[j].None?))
    ensures ProcessFrame(preds, prevs, timestamps, now).Failure?
  {
    FrameLabelLimit(j);
    assert SpotAt(preds, prevs, timestamps, now, j).Failure?;
  }

  /** A frame with more spots than labels, whose lists are otherwise coherent,
      raises `chr`'s error at spot `MAX_LABELLED_SPOTS`, the first unlabelled one. */
  lemma TooManySpotsFails(preds: seq<int>, prevs: seq<bool>, timestamps: seq<Option<int>>, now: int)
    requires |preds| > MAX_LABELLED_SPOTS
    requires |prevs| >= MAX_LABELLED_SPOTS && |timestamps| >= MAX_LABELLED_SPOTS
    requires forall j :: 0 <= j < MAX_LABELLED_SPOTS && prevs[j] ==> timestamps[j].Some?
    ensures ProcessFrame(preds, prevs, timestamps, now) == Failure(LabelOutOfRange(MAX_LABELLED_SPOTS))
  {
    forall j | 0 <= j < MAX_LABELLED_SPOTS
      ensures SpotAt(preds, prevs, timestamps, now, j).Success?
    {
      FrameLabelLimit(j);
    }
    FrameLabelLimit(MAX_LABELLED_SPOTS);
    assert SpotAt(preds, prevs, timestamps, now, MAX_LABELLED_SPOTS) == Failure(LabelOutOfRange(MAX_LABELLED_SPOTS));
    var r := ProcessFrame(preds, prevs, timestamps, now);
    var j :| 0 <= j < |preds| && FirstFailure(preds, prevs, timestamps, now, j, r.error);
    assert j == MAX_LABELLED_SPOTS;
  }

  /** Every spot of a completed frame follows the transition table: rising
      edge, falling edge, unchanged truthy, unchanged falsy. */
  lemma FrameTransitions(preds: seq<int>, prevs: seq<bool>, timestamps: seq<Option<int>>, now: int, j: nat)
    requires ProcessFrame(preds, prevs, timestamps, now).Success?
    requires j < |preds| && j < |timestamps|
    ensures j < |prevs|
    ensures var r := ProcessFrame(preds, prevs, timestamps, now).value;
            SpotTransition(prevs[j], timestamps[j], r.statuses[j], r.timestamps[j], r.events[j], now)
  {
    var r := ProcessFrame(preds, prevs, timestamps, now).value;
    var s := SpotAt(preds, prevs, timestamps, now, j);
    assert s.Success? && r.events[j] == s.value.event && r.timestamps[j] == s.value.since;
  }

  /** A frame that cannot raise, with every spot following the transition table. */
  lemma CoherentFrameTransitions(preds: seq<int>, prevs: seq<bool>, timestamps: seq<Option<int>>, now: int)
    requires |preds| <= MAX_LABELLED_SPOTS
    requires |prevs| == |preds| && |timestamps| == |preds|
    requires forall j :: 0 <= j < |preds| && prevs[j] ==> timestamps[j].Some?
    ensures ProcessFrame(preds, prevs, timestamps, now).Success?
    ensures var r := ProcessFrame(preds, prevs, timestamps, now).value;
            forall j :: 0 <= j < |preds| ==>
              SpotTransition(prevs[j], timestamps[j], r.statuses[j], r.timestamps[j], r.events[j], now)
    ensures var r := ProcessFrame(preds, prevs, timestamps, now).value;
            forall j :: 0 <= j < |r.statuses| && r.statuses[j] ==> r.timestamps[j].Some?
  {
    CoherentFrameSucceeds(preds, prevs, timestamps, now);
    forall j | 0 <= j < |preds|
      ensures var r := ProcessFrame(preds, prevs, timestamps, now).value;
              SpotTransition(prevs[j], timestamps[j], r.statuses[j], r.timestamps[j], r.events[j], now)
    {
      FrameTransitions(preds, prevs, timestamps, now, j);
    }
  }
}

=== FILE: labels.dfy ===
/** Spot labels: a row letter followed by a 1-based position in the row. */
module Labels {
  import opened Wrappers

  // Row width used for the labels drawn on each spot and logged with events.
  const FRAME_ROW_WIDTH: nat := 20
  // Row width used by the available/occupied tables.
  const TABLE_ROW_WIDTH: nat := 16

  const LETTER_A: int := 65
  const MAX_CODE_POINT: int := 0x10FFFF

  /** How many spots the frame labels can name: rows 'A' up to the last code
      point, `FRAME_ROW_WIDTH` spots each. */
  const MAX_LABELLED_SPOTS: nat := (MAX_CODE_POINT - LETTER_A + 1) * FRAME_ROW_WIDTH

  /** A label: the code point of its letter and its number. The letter is
      kept as a code point because Python's `chr` also yields surrogates,
      which a Dafny `char` cannot hold. */
  datatype Label = Label(letter: int, number: int)

  /** `chr` rejects a code point above the Unicode range. */
  datatype LabelError = CodePointOutOfRange(codePoint: int)

  /** The spot index a label stands for under the given row width. */
  function LabelIndex(l: Label, rowWidth: nat): int
  {
    (l.letter - LETTER_A) * rowWidth + l.number - 1
  }

  /** The label of spot `index`: row `index / rowWidth` lettered from 'A',
      number `index % rowWidth + 1`. */
  function SpotLabel(index: nat, rowWidth: nat): (r: Result<Label, LabelError>)
    requires rowWidth > 0
    ensures r.Success? <==> LETTER_A + index / rowWidth <= MAX_CODE_POINT
    ensures r.Failure? ==> r.error == CodePointOutOfRange(LETTER_A + index / rowWidth)
    ensures r.Success? ==> LETTER_A <= r.value.letter <= MAX_CODE_POINT
    ensures r.Success? ==> 1 <= r.value.number <= rowWidth
    ensures r.Success? ==> LabelIndex(r.value, rowWidth) == index
  {
    var code := LETTER_A + index / rowWidth;
    if code > MAX_CODE_POINT then Failure(CodePointOutOfRange(code))
    else Success(Label(code, index % rowWidth + 1))
  }

  /** A frame label exists exactly for the first `MAX_LABELLED_SPOTS` spots;
      from spot 22,280,940 on, `chr` rejects the row letter. */
  lemma FrameLabelLimit(index: nat)
    ensures MAX_LABELLED_SPOTS == 22280940
    ensures SpotLabel(index, FRAME_ROW_WIDTH).Success? <==> index < MAX_LABELLED_SPOTS
  {
  }

  /** With row width 20, spots 1,104,620 to 1,145,579 get a row letter that
      is a lone UTF-16 surrogate (U+D800 to U+DFFF): `chr` accepts it, but it
      cannot be encoded as UTF-8 when the label is printed or drawn. */
  lemma SurrogateFrameLabels(index: nat)
    requires SpotLabel(index, FRAME_ROW_WIDTH).Success?
    ensures 0xD800 <= SpotLabel(index, FRAME_ROW_WIDTH).value.letter <= 0xDFFF
            <==> 1104620 <= index < 1145580
  {
  }

  /** Distinct spots get distinct labels under the same row width. */
  lemma SpotLabelInjective(i: nat, j: nat, rowWidth: nat)
    requires rowWidth > 0
    requires SpotLabel(i, rowWidth).Success? && SpotLabel(j, rowWidth).Success?
    requires i != j
    ensures SpotLabel(i, rowWidth).value != SpotLabel(j, rowWidth).value
  {
  }

  /** The frame labels use row width 20: the first spots of the first two rows. */
  lemma FrameLabelExamples()
    ensures SpotLabel(0, FRAME_ROW_WIDTH) == Success(Label('A' as int, 1))
    ensures SpotLabel(19, FRAME_ROW_WIDTH) == Success(Label('A' as int, 20))
    ensures SpotLabel(20, FRAME_ROW_WIDTH) == Success(Label('B' as int, 1))
  {
  }

  /** The tables label with width 16, so spot 16 appears as "A17" on the
      frame but as "B1" in the tables. */
  lemma RowWidthsDisagree()
    ensures SpotLabel(16, FRAME_ROW_WIDTH) == Success(Label('A' as int, 17))
    ensures SpotLabel(16, TABLE_ROW_WIDTH) == Success(Label('B' as int, 1))
  {
  }
}

=== FILE: util.dfy ===
/** The classifier adapter and the spot-geometry extraction of util.py. */
module Util {
  import opened Wrappers

  // The two classification states are plain booleans (util.py:7-8).
  const EMPTY: bool := true
  const OCCUPIED: bool := false

  /** The two states are distinct and each is the negation of the other. */
  lemma StatesComplementary()
    ensures EMPTY != OCCUPIED
    ensures OCCUPIED == !EMPTY
  {
  }

  /** Maps the classifier's raw prediction to a state: label 1 means EMPTY,
      every other label means OCCUPIED. The resize and the model call that
      produce the label are not modelled; the label is the input. */
  function EmptyOrOccupied(prediction: int): (status: bool)
    ensures status == EMPTY <==> prediction == 1
    ensures status == OCCUPIED <==> prediction != 1
  {
    if prediction == 1 then EMPTY else OCCUPIED
  }

  /** One row of the connected-component statistics table, in the column
      order LEFT, TOP, WIDTH, HEIGHT, AREA. */
  datatype StatsRow = StatsRow(left: int, top: int, width: int, height: int, area: int)

  /** The part of a connected-components analysis the extraction reads:
      the number of labels (background label 0 included) and the table. */
  datatype Components = Components(totalLabels: int, stats: seq<StatsRow>)

  /** A spot's bounding rectangle `(x, y, w, h)` in frame pixels. */
  datatype Box = Box(x: int, y: int, w: int, h: int)

  /** Reading a statistics row that the table does not have. */
  datatype BoxError = RowMissing(component: nat)

  // Scale factor applied to every coordinate.
  const COEF: int := 1

  function Scale(v: int): int
  {
    v * COEF
  }

  /** One box per foreground label 1 .. totalLabels - 1, in label order,
      copied from that label's statistics row. A label whose row is missing
      aborts the extraction, reporting the first such label. */
  method SpotBoxes(cc: Components) returns (r: Result<seq<Box>, BoxError>)
    ensures r.Success? <==> cc.totalLabels <= 1 || cc.totalLabels <= |cc.stats|
    ensures r.Failure? ==> r.error == RowMissing(if |cc.stats| == 0 then 1 else |cc.stats|)
    ensures r.Success? ==> |r.value| == (if cc.totalLabels <= 1 then 0 else cc.totalLabels - 1)
    ensures r.Success? ==> forall k :: 0 <= k < |r.value| ==>
              k + 1 < |cc.stats| &&
              r.value[k] == Box(cc.stats[k + 1].left, cc.stats[k + 1].top,
                                cc.stats[k + 1].width, cc.stats[k + 1].height)
  {
    var spots: seq<Box> := [];
    var i := 1;
    while i < cc.totalLabels
      invariant 1 <= i
      invariant cc.totalLabels <= 1 ==> i == 1
      invariant cc.totalLabels > 1 ==> i <= cc.totalLabels
      invariant i == 1 || i <= |cc.stats|
      invariant |spots| == i - 1
      invariant forall k :: 0 <= k < |spots| ==>
                  k + 1 < |cc.stats| &&
                  spots[k] == Box(cc.stats[k + 1].left, cc.stats[k + 1].top,
                                  cc.stats[k + 1].width, cc.stats[k + 1].height)
    {
      if i >= |cc.stats| {
        return Failure(RowMissing(i));
      }
      var row := cc.stats[i];
      spots := spots + [Box(Scale(row.left), Scale(row.top), Scale(row.width), Scale(row.height))];
      i := i + 1;
    }
    return Success(spots);
  }
}

=== FILE: video.dfy ===
/** How `process_video` drives `process_frame` across frames. The call
    pattern as written (fresh lists on every frame) comes first; then a
    tracker that carries statuses and timestamps from one frame to the next;
    then the history such a tracker should follow, stated from the captures
    alone, and the proofs that it does. */
module Video {
  import opened Wrappers
  import opened Util
  import opened Labels
  import opened Frames

  /** One video frame as the core sees it: the classifier's raw prediction
      for each spot, in spot order, and the clock reading for the frame. */
  datatype Capture = Capture(predictions: seq<int>, now: int)

  function Repeat<T>(v: T, n: nat): (s: seq<T>)
    ensures |s| == n
    ensures forall j :: 0 <= j < n ==> s[j] == v
  {
    seq(n, _ => v)
  }

  /** Every capture classifies the same `n` spots. */
  predicate Uniform(captures: seq<Capture>, n: nat)
  {
    forall f :: 0 <= f < |captures| ==> |captures[f].predictions| == n
  }

  /** Spot `j` is classified truthy in frame `f`. */
  predicate Truthy(captures: seq<Capture>, f: nat, j: nat)
    requires f < |captures|
  {
    j < |captures[f].predictions| && EmptyOrOccupied(captures[f].predictions[j])
  }

  /** A spot that starts falsy with timestamp 0 either arrives, its slot
      reset to `now`, or stays idle at 0. */
  lemma FreshTransition(status: bool, since': Option<int>, event: Event, now: int)
    requires SpotTransition(false, Some(0), status, since', event, now)
    ensures event == (if status then Arrived(now) else Idle)
    ensures since' == (if status then Some(now) else Some(0))
  {
  }

  /** A frame processed on all-falsy statuses and all-zero timestamps, spot by spot. */
  lemma FreshSpots(preds: seq<int>, prevs: seq<bool>, timestamps: seq<Option<int>>, now: int)
    requires |preds| <= MAX_LABELLED_SPOTS
    requires |prevs| == |preds| && |timestamps| == |preds|
    requires forall j :: 0 <= j < |prevs| ==> !prevs[j]
    requires forall j :: 0 <= j < |timestamps| ==> timestamps[j] == Some(0)
    ensures ProcessFrame(preds, prevs, timestamps, now).Success?
    ensures var r := ProcessFrame(preds, prevs, timestamps, now).value;
            forall j :: 0 <= j < |preds| ==>
              && r.events[j] == (if r.statuses[j] then Arrived(now) else Idle)
              && r.timestamps[j] == (if r.statuses[j] then Some(now) else Some(0))
  {
    CoherentFrameTransitions(preds, prevs, timestamps, now);
    var r := ProcessFrame(preds, prevs, timestamps, now).value;
    forall j | 0 <= j < |preds|
      ensures r.events[j] == (if r.statuses[j] then Arrived(now) else Idle)
      ensures r.timestamps[j] == (if r.statuses[j] then Some(now) else Some(0))
    {
      FreshTransition(r.statuses[j], r.timestamps[j], r.events[j], now);
    }
  }

  /** One frame processed with a fresh timestamp list `[0] * n` and a fresh
      previous-status list `[False] * n`. Such a frame raises only when it
      has more spots than labels. Otherwise every truthy spot takes the
      rising edge, so its timestamp is reset to `now`, and no departure or
      elapsed time can ever be reported. */
  function FreshFrame(c: Capture): (r: Result<FrameReport, FrameError>)
    ensures r.Success? <==> |c.predictions| <= MAX_LABELLED_SPOTS
    ensures r.Failure? ==> r.error == LabelOutOfRange(MAX_LABELLED_SPOTS)
    ensures r.Success? ==> |r.value.statuses| == |c.predictions| && |r.value.events| == |c.predictions|
    ensures r.Success? ==> |r.value.timestamps| == |c.predictions|
    ensures r.Success? ==> forall j :: 0 <= j < |c.predictions| ==>
              r.value.statuses[j] == EmptyOrOccupied(c.predictions[j])
    ensures r.Success? ==> forall j :: 0 <= j < |c.predictions| ==>
              r.value.events[j] == (if r.value.statuses[j] then Arrived(c.now) else Idle)
    ensures r.Success? ==> forall j :: 0 <= j < |c.predictions| ==>
              r.value.timestamps[j] == (if r.value.statuses[j] then Some(c.now) else Some(0))
  {
    var n := |c.predictions|;
    if n <= MAX_LABELLED_SPOTS then
      FreshSpots(c.predictions, Repeat(false, n), Repeat(Some(0), n), c.now);
      ProcessFrame(c.predictions, Repeat(false, n), Repeat(Some(0), n), c.now)
    else
      TooManySpotsFails(c.predictions, Repeat(false, n), Repeat(Some(0), n), c.now);
      ProcessFrame(c.predictions, Repeat(false, n), Repeat(Some(0), n), c.now)
  }

  /** The reports of `process_video` as written: each frame is processed on
      its own, so a spot's event depends on its current classification only.
      The first frame that raises ends the run. */
  function AsWrittenVideo(captures: seq<Capture>): (r: Result<seq<FrameReport>, FrameError>)
    ensures r.Success? <==> forall f :: 0 <= f < |captures| ==> FreshFrame(captures[f]).Success?
    ensures r.Failure? ==> exists f :: 0 <= f < |captures| && FreshFrame(captures[f]) == Failure(r.error)
    ensures r.Success? ==> |r.value| == |captures|
    ensures r.Success? ==> forall f :: 0 <= f < |captures| ==> |r.value[f].events| == |captures[f].predictions|
    ensures r.Success? ==> forall f, j :: 0 <= f < |captures| && 0 <= j < |captures[f].predictions| ==>
              r.value[f].events[j] == (if Truthy(captures, f, j) then Arrived(captures[f].now) else Idle)
  {
    if forall f :: 0 <= f < |captures| ==> FreshFrame(captures[f]).Success? then
      Success(seq(|captures|, f requires 0 <= f < |captures| => FreshFrame(captures[f]).value))
    else
      var f :| 0 <= f < |captures| && FreshFrame(captures[f]).Failure?;
      Failure(FreshFrame(captures[f]).error)
  }

  /** The per-spot state carried between frames. */
  datatype Tracker = Tracker(statuses: seq<bool>, timestamps: seq<Option<int>>)

  /** Every spot whose status is truthy holds a timestamp. */
  predicate Coherent(t: Tracker)
  {
    && |t.statuses| == |t.timestamps|
    && forall j :: 0 <= j < |t.statuses| && t.statuses[j] ==> t.timestamps[j].Some?
  }

  /** The state before the first frame: the same lists `process_video` builds. */
  function Start(n: nat): (t: Tracker)
    ensures Coherent(t) && |t.statuses| == n
    ensures forall j :: 0 <= j < n ==> !t.statuses[j]
    ensures forall j :: 0 <= j < n ==> t.timestamps[j] == Some(0)
  {
    Tracker(Repeat(false, n), Repeat(Some(0), n))
  }

  /** Processes one frame against the tracker and keeps its statuses and
      timestamps for the next frame. With no more spots than labels, a
      coherent tracker never makes the frame abort, every spot follows the
      transition table against the carried state, and the tracker stays
      coherent. */
  function Advance(t: Tracker, c: Capture): (r: (Tracker, FrameReport))
    requires Coherent(t) && |c.predictions| == |t.statuses| <= MAX_LABELLED_SPOTS
    ensures Coherent(r.0) && |r.0.statuses| == |t.statuses|
    ensures r.0 == Tracker(r.1.statuses, r.1.timestamps)
    ensures |r.1.events| == |t.statuses|
    ensures forall j :: 0 <= j < |t.statuses| ==> r.1.statuses[j] == EmptyOrOccupied(c.predictions[j])
    ensures forall j :: 0 <= j < |t.statuses| ==>
              SpotTransition(t.statuses[j], t.timestamps[j], r.1.statuses[j], r.1.timestamps[j], r.1.events[j], c.now)
  {
    CoherentFrameTransitions(c.predictions, t.statuses, t.timestamps, c.now);
    var r := ProcessFrame(c.predictions, t.statuses, t.timestamps, c.now).value;
    (Tracker(r.statuses, r.timestamps), r)
  }

  /** The tracker after all captures, with one report per capture, for a
      lot whose spots can all be labelled (see `ThreadedVideo` for the rest). */
  function RunTracker(n: nat, captures: seq<Capture>): (r: (Tracker, seq<FrameReport>))
    requires Uniform(captures, n) && n <= MAX_LABELLED_SPOTS
    ensures Coherent(r.0) && |r.0.statuses| == n && |r.1| == |captures|
    ensures forall f :: 0 <= f < |captures| ==> |r.1[f].events| == n
    decreases |captures|
  {
    if |captures| == 0 then (Start(n), [])
    else
      var prior := RunTracker(n, captures[..|captures| - 1]);
      var next := Advance(prior.0, captures[|captures| - 1]);
      (next.0, prior.1 + [next.1])
  }

  /** The first frame of the run of truthy frames of spot `j` that ends at `f`
      (`f` itself when frame `f - 1` is not truthy). */
  function StreakStart(captures: seq<Capture>, f: nat, j: nat): (s: nat)
    requires f < |captures|
    ensures s <= f
    ensures forall g :: s <= g < f ==> Truthy(captures, g, j)
    ensures s > 0 ==> !Truthy(captures, s - 1, j)
    decreases f
  {
    if f > 0 && Truthy(captures, f - 1, j) then StreakStart(captures, f - 1, j) else f
  }

  /** The event spot `j` should report in frame `f`, judged from the
      classification history: an arrival when a truthy run begins, the time
      elapsed since it began while it lasts, its length when it ends. */
  function ExpectedEvent(captures: seq<Capture>, f: nat, j: nat): Event
    requires f < |captures|
  {
    var now := captures[f].now;
    var was := f > 0 && Truthy(captures, f - 1, j);
    if Truthy(captures, f, j) && !was then Arrived(now)
    else if Truthy(captures, f, j) then Parked(now - captures[StreakStart(captures, f, j)].now)
    else if was then Departed(now, now - captures[StreakStart(captures, f - 1, j)].now)
    else Idle
  }

  /** A prefix of the captures tells the same history for the frames it holds. */
  lemma {:induction false} PrefixHistory(captures: seq<Capture>, m: nat, f: nat, j: nat)
    requires f < m <= |captures|
    ensures Truthy(captures[..m], f, j) == Truthy(captures, f, j)
    ensures StreakStart(captures[..m], f, j) == StreakStart(captures, f, j)
    ensures ExpectedEvent(captures[..m], f, j) == ExpectedEvent(captures, f, j)
    decreases f
  {
    assert captures[..m][f] == captures[f];
    if f > 0 {
      PrefixHistory(captures, m, f - 1, j);
    }
  }

  /** `t` holds, for each spot, its classification in frame `k - 1` (falsy
      before any frame) and, when truthy, the clock reading at the start of
      its current truthy run. */
  predicate Reflects(t: Tracker, captures: seq<Capture>, k: nat, n: nat)
    requires k <= |captures|
  {
    && |t.statuses| == n && |t.timestamps| == n
    && (forall j :: 0 <= j < n ==> t.statuses[j] == (k > 0 && Truthy(captures, k - 1, j)))
    && (forall j :: 0 <= j < n && t.statuses[j] ==>
          t.timestamps[j] == Some(captures[StreakStart(captures, k - 1, j)].now))
  }

  /** The transition table read against the history: if the spot held the
      timestamp of its current run, the frame's transition yields the
      expected event and the timestamp of the new run. */
  lemma TransitionFollowsHistory(captures: seq<Capture>, f: nat, j: nat, was: bool,
                                 since: Option<int>, since': Option<int>, event: Event)
    requires f < |captures|
    requires was == (f > 0 && Truthy(captures, f - 1, j))
    requires was ==> since == Some(captures[StreakStart(captures, f - 1, j)].now)
    requires SpotTransition(was, since, Truthy(captures, f, j), since', event, captures[f].now)
    ensures event == ExpectedEvent(captures, f, j)
    ensures Truthy(captures, f, j) ==> since' == Some(captures[StreakStart(captures, f, j)].now)
  {
  }

  /** Frame `f` seen from a tracker that reflects the frames before it: spot
      `j` reports the expected event and ends up reflecting frame `f`. */
  lemma AdvanceSpot(n: nat, captures: seq<Capture>, f: nat, t: Tracker, j: nat)
    requires f < |captures| && Uniform(captures, n) && n <= MAX_LABELLED_SPOTS && j < n
    requires Coherent(t) && Reflects(t, captures, f, n)
    ensures Advance(t, captures[f]).0.statuses[j] == Truthy(captures, f, j)
    ensures Advance(t, captures[f]).0.statuses[j] ==>
              Advance(t, captures[f]).0.timestamps[j] == Some(captures[StreakStart(captures, f, j)].now)
    ensures Advance(t, captures[f]).1.events[j] == ExpectedEvent(captures, f, j)
  {
    var r := Advance(t, captures[f]);
    assert r.1.statuses[j] == Truthy(captures, f, j);
    TransitionFollowsHistory(captures, f, j, t.statuses[j], t.timestamps[j], r.1.timestamps[j], r.1.events[j]);
  }

  /** A reflecting tracker reflects the next frame after advancing, and the
      frame's events are the expected ones. */
  lemma AdvanceReflects(n: nat, captures: seq<Capture>, f: nat, t: Tracker)
    requires f < |captures| && Uniform(captures, n) && n <= MAX_LABELLED_SPOTS
    requires Coherent(t) && Reflects(t, captures, f, n)
    ensures Reflects(Advance(t, captures[f]).0, captures, f + 1, n)
    ensures forall j :: 0 <= j < n ==> Advance(t, captures[f]).1.events[j] == ExpectedEvent(captures, f, j)
  {
    forall j | 0 <= j < n
      ensures Advance(t, captures[f]).0.statuses[j] == Truthy(captures, f, j)
      ensures Advance(t, captures[f]).0.statuses[j] ==>
                Advance(t, captures[f]).0.timestamps[j] == Some(captures[StreakStart(captures, f, j)].now)
      ensures Advance(t, captures[f]).1.events[j] == ExpectedEvent(captures, f, j)
    {
      AdvanceSpot(n, captures, f, t, j);
    }
  }

  /** A tracker that reflects the first `m` frames of a prefix reflects them in the whole history. */
  lemma PrefixReflects(n: nat, captures: seq<Capture>, m: nat, t: Tracker)
    requires m <= |captures|
    requires Reflects(t, captures[..m], m, n)
    ensures Reflects(t, captures, m, n)
  {
    forall j | 0 <= j < n
      ensures t.statuses[j] == (m > 0 && Truthy(captures, m - 1, j))
      ensures t.statuses[j] ==> t.timestamps[j] == Some(captures[StreakStart(captures, m - 1, j)].now)
    {
      if m > 0 {
        PrefixHistory(captures, m, m - 1, j);
        assert captures[..m][StreakStart(captures[..m], m - 1, j)] == captures[StreakStart(captures, m - 1, j)];
      }
    }
  }

  /** Reports that follow the history of a prefix follow the whole history for the same frames. */
  lemma PrefixReports(n: nat, captures: seq<Capture>, m: nat, reports: seq<FrameReport>)
    requires m <= |captures| && |reports| == m
    requires forall f :: 0 <= f < m ==> |reports[f].events| == n
    requires forall f, j :: 0 <= f < m && 0 <= j < n ==>
               reports[f].events[j] == ExpectedEvent(captures[..m], f, j)
    ensures forall f, j :: 0 <= f < m && 0 <= j < n ==>
              reports[f].events[j] == ExpectedEvent(captures, f, j)
  {
    forall f, j | 0 <= f < m && 0 <= j < n
      ensures reports[f].events[j] == ExpectedEvent(captures, f, j)
    {
      PrefixHistory(captures, m, f, j);
    }
  }

  /** Reports that follow the history for all frames but the last, and a
      last report that follows it too, together follow the whole history. */
  lemma AppendReport(n: nat, captures: seq<Capture>, reports: seq<FrameReport>, last: FrameReport)
    requires |reports| + 1 == |captures|
    requires forall f :: 0 <= f < |reports| ==> |reports[f].events| == n
    requires forall f, j :: 0 <= f < |reports| && 0 <= j < n ==>
               reports[f].events[j] == ExpectedEvent(captures, f, j)
    requires |last.events| == n
    requires forall j :: 0 <= j < n ==> last.events[j] == ExpectedEvent(captures, |reports|, j)
    ensures forall f, j :: 0 <= f < |captures| && 0 <= j < n ==>
              (reports + [last])[f].events[j] == ExpectedEvent(captures, f, j)
  {
    var all := reports + [last];
    forall f, j | 0 <= f < |captures| && 0 <= j < n
      ensures all[f].events[j] == ExpectedEvent(captures, f, j)
    {
      if f < |reports| {
        assert all[f] == reports[f];
      }
    }
  }

  /** The threaded tracker follows the history: after any number of frames
      every spot's state reflects the last frame, and every report's event is
      the expected one. */
  lemma {:induction false} RunTrackerFollowsHistory(n: nat, captures: seq<Capture>)
    requires Uniform(captures, n) && n <= MAX_LABELLED_SPOTS
    ensures Reflects(RunTracker(n, captures).0, captures, |captures|, n)
    ensures forall f, j :: 0 <= f < |captures| && 0 <= j < n ==>
              RunTracker(n, captures).1[f].events[j] == ExpectedEvent(captures, f, j)
    decreases |captures|
  {
    var k := |captures|;
    if k > 0 {
      var before := captures[..k - 1];
      var prior := RunTracker(n, before);
      RunTrackerFollowsHistory(n, before);
      PrefixReflects(n, captures, k - 1, prior.0);
      PrefixReports(n, captures, k - 1, prior.1);
      AdvanceReflects(n, captures, k - 1, prior.0);
      var last := Advance(prior.0, captures[k - 1]);
      assert RunTracker(n, captures) == (last.0, prior.1 + [last.1]);
      AppendReport(n, captures, prior.1, last.1);
    }
  }

  /** `process_video` with the statuses and timestamps threaded from frame
      to frame. A lot with more spots than labels raises in its first frame,
      exactly as that frame processed on the initial lists does; otherwise
      the run completes and follows the classification history. */
  function ThreadedVideo(n: nat, captures: seq<Capture>): (r: Result<(Tracker, seq<FrameReport>), FrameError>)
    requires Uniform(captures, n)
    ensures r.Success? <==> |captures| == 0 || n <= MAX_LABELLED_SPOTS
    ensures r.Failure? ==> 0 < |captures|
    ensures r.Failure? ==>
              ProcessFrame(captures[0].predictions, Start(n).statuses, Start(n).timestamps, captures[0].now)
              == Failure(r.error)
    ensures r.Success? ==> |r.value.1| == |captures| && Reflects(r.value.0, captures, |captures|, n)
    ensures r.Success? ==> forall f, j :: 0 <= f < |captures| && 0 <= j < n ==>
              |r.value.1[f].events| == n && r.value.1[f].events[j] == ExpectedEvent(captures, f, j)
  {
    if |captures| == 0 then Success((Start(n), []))
    else if n > MAX_LABELLED_SPOTS then
      var t := Start(n);
      TooManySpotsFails(captures[0].predictions, t.statuses, t.timestamps, captures[0].now);
      Failure(LabelOutOfRange(MAX_LABELLED_SPOTS))
    else
      RunTrackerFollowsHistory(n, captures);
      Success(RunTracker(n, captures))
  }

  /** Inside a run of truthy frames that begins at `a`, every frame's run starts at `a`. */
  lemma StreakStartInRun(captures: seq<Capture>, j: nat, a: nat, f: nat)
    requires a <= f < |captures|
    requires forall g :: a <= g <= f ==> Truthy(captures, g, j)
    requires a == 0 || !Truthy(captures, a - 1, j)
    ensures StreakStart(captures, f, j) == a
  {
  }

  /** The history view of a truthy run `a .. b`: an arrival at `a`, then the
      time elapsed since `a`, then (if the run ends) the dwell since `a`. */
  lemma ExpectedRun(captures: seq<Capture>, j: nat, a: nat, b: nat)
    requires a <= b < |captures|
    requires forall f :: a <= f <= b ==> Truthy(captures, f, j)
    requires a == 0 || !Truthy(captures, a - 1, j)
    ensures ExpectedEvent(captures, a, j) == Arrived(captures[a].now)
    ensures forall f :: a < f <= b ==> ExpectedEvent(captures, f, j) == Parked(captures[f].now - captures[a].now)
    ensures b + 1 < |captures| && !Truthy(captures, b + 1, j) ==>
              ExpectedEvent(captures, b + 1, j) == Departed(captures[b + 1].now, captures[b + 1].now - captures[a].now)
  {
    assert Truthy(captures, a, j);
    forall f | a < f <= b
      ensures ExpectedEvent(captures, f, j) == Parked(captures[f].now - captures[a].now)
    {
      assert Truthy(captures, f, j) && Truthy(captures, f - 1, j);
      StreakStartInRun(captures, j, a, f);
    }
    if b + 1 < |captures| && !Truthy(captures, b + 1, j) {
      assert Truthy(captures, b, j);
      StreakStartInRun(captures, j, a, b);
    }
  }

  /** With the threaded tracker, a spot classified truthy in frames `a .. b`
      (and not in frame `a - 1`) reports one arrival, at frame `a`, and then
      the time elapsed since frame `a` in each later frame of the run. */
  lemma SingleArrivalPerRun(n: nat, captures: seq<Capture>, j: nat, a: nat, b: nat)
    requires Uniform(captures, n) && n <= MAX_LABELLED_SPOTS && j < n && a <= b < |captures|
    requires forall f :: a <= f <= b ==> Truthy(captures, f, j)
    requires a == 0 || !Truthy(captures, a - 1, j)
    ensures RunTracker(n, captures).1[a].events[j] == Arrived(captures[a].now)
    ensures forall f :: a < f <= b ==>
              RunTracker(n, captures).1[f].events[j] == Parked(captures[f].now - captures[a].now)
  {
    ExpectedRun(captures, j, a, b);
    RunTrackerFollowsHistory(n, captures);
  }

  /** With the threaded tracker, the frame that ends a truthy run `a .. b`
      reports a departure whose duration is the time since frame `a`. */
  lemma DepartureReportsDwell(n: nat, captures: seq<Capture>, j: nat, a: nat, b: nat)
    requires Uniform(captures, n) && n <= MAX_LABELLED_SPOTS && j < n && a <= b && b + 1 < |captures|
    requires forall f :: a <= f <= b ==> Truthy(captures, f, j)
    requires a == 0 || !Truthy(captures, a - 1, j)
    requires !Truthy(captures, b + 1, j)
    ensures RunTracker(n, captures).1[b + 1].events[j]
            == Departed(captures[b + 1].now, captures[b + 1].now - captures[a].now)
  {
    ExpectedRun(captures, j, a, b);
    RunTrackerFollowsHistory(n, captures);
  }

  /** Feeding the tracker the same classifications again, at any later time,
      changes no status or timestamp and reports no arrival or departure. */
  lemma RepeatedFrameChangesNothing(t: Tracker, c: Capture, later: int)
    requires Coherent(t) && |c.predictions| == |t.statuses| <= MAX_LABELLED_SPOTS
    ensures var first := Advance(t, c).0;
            var second := Advance(first, Capture(c.predictions, later));
            && second.0 == first
            && forall j :: 0 <= j < |t.statuses| ==> second.1.events[j].Parked? || second.1.events[j].Idle?
  {
    var first := Advance(t, c).0;
    var second := Advance(first, Capture(c.predictions, later));
    forall j | 0 <= j < |t.statuses|
      ensures second.0.statuses[j] == first.statuses[j] && second.0.timestamps[j] == first.timestamps[j]
      ensures second.1.events[j].Parked? || second.1.events[j].Idle?
    {
      assert SpotTransition(first.statuses[j], first.timestamps[j], second.1.statuses[j],
                            second.1.timestamps[j], second.1.events[j], later);
    }
    assert second.0.statuses == first.statuses;
    assert second.0.timestamps == first.timestamps;
  }

  /** Three spots; spot 1 is classified truthy (prediction 1) at t=0 and
      t=10 and falsy at t=15. */
  function Scenario(): seq<Capture>
  {
    [Capture([0, 1, 0], 0), Capture([0, 1, 0], 10), Capture([0, 0, 0], 15)]
  }

  /** The threaded tracker reports one arrival, then 10 seconds elapsed,
      then a departure after a 15-second stay. */
  lemma ThreadedScenario()
    ensures Uniform(Scenario(), 3)
    ensures RunTracker(3, Scenario()).1[0].events[1] == Arrived(0)
    ensures RunTracker(3, Scenario()).1[1].events[1] == Parked(10)
    ensures RunTracker(3, Scenario()).1[2].events[1] == Departed(15, 15)
  {
    var captures := Scenario();
    assert Truthy(captures, 0, 1) && Truthy(captures, 1, 1) && !Truthy(captures, 2, 1);
    SingleArrivalPerRun(3, captures, 1, 0, 1);
    DepartureReportsDwell(3, captures, 1, 0, 1);
  }

  /** The call pattern as written reports an arrival in each truthy frame,
      and neither the elapsed time nor the departure. */
  lemma AsWrittenScenario()
    ensures AsWrittenVideo(Scenario()).Success?
    ensures AsWrittenVideo(Scenario()).value[0].events[1] == Arrived(0)
    ensures AsWrittenVideo(Scenario()).value[1].events[1] == Arrived(10)
    ensures AsWrittenVideo(Scenario()).value[2].events[1] == Idle
  {
    var captures := Scenario();
    assert forall f :: 0 <= f < |captures| ==> |captures[f].predictions| == 3;
    assert AsWrittenVideo(captures).Success?;
    assert Truthy(captures, 0, 1) && Truthy(captures, 1, 1) && !Truthy(captures, 2, 1);
  }

  /** Whenever a spot stays truthy from one frame to the next, the call
      pattern as written reports a fresh arrival where the threaded tracker
      reports the time elapsed. */
  lemma VariantsDiverge(n: nat, captures: seq<Capture>, j: nat, f: nat)
    requires Uniform(captures, n) && n <= MAX_LABELLED_SPOTS && j < n && 0 < f < |captures|
    requires Truthy(captures, f - 1, j) && Truthy(captures, f, j)
    ensures AsWrittenVideo(captures).Success?
    ensures AsWrittenVideo(captures).value[f].events[j] == Arrived(captures[f].now)
    ensures RunTracker(n, captures).1[f].events[j]
            == Parked(captures[f].now - captures[StreakStart(captures, f, j)].now)
  {
    assert ExpectedEvent(captures, f, j) == Parked(captures[f].now - captures[StreakStart(captures, f, j)].now);
    RunTrackerFollowsHistory(n, captures);
  }
}

=== FILE: wrappers.dfy ===
/** Failure-carrying datatypes shared by the other modules. */
module Wrappers {

  /** A value that may be absent: Python's `None` versus a present value. */
  datatype Option<+T> = None | Some(value: T)

  /** The outcome of an operation that the source would abort with an exception. */
  datatype Result<+T, +E> = Success(value: T) | Failure(error: E)
}
